=== FILE: README.md ===
# maypy in Dafny

A model of the two pure components of the `maypy` Python library:

- **Maybe**: an optional-value container that is either present (`_ValuedMaybe`) or empty (`_EmptyMaybe`). It has a Java-Optional style API: `of`, `empty`, `get`, `filter`, `map`, `or_else`, `or_none`, `or_else_raise`, `is_present`, `is_empty`, `if_present`, `__bool__`, `__eq__` and the string form. The library carries two copies of it:
  - `maypy/_maybe.py`, modelled by module `MaypyMaybe`;
  - the earlier `maybe/_maybe.py`, modelled by module `LegacyMaybe`. Every `LegacyMaybe` operation is also proved to agree with its `MaypyMaybe` counterpart through `LegacyMaybe.Lift`.
- **Predicate combinators** (`maypy/predicates.py`, module `Predicates`): factories that capture some configuration and return a predicate. The factories are `is_length`, `neg`, `equals`, `contains`, `one_of`, `match_regex`, `gt`/`ge`/`lt`/`le` and `between`. The plain predicates are `is_truthy`, `is_falsy`, `is_empty` and `is_blank_str`. A predicate is a Dafny function value `T -> bool`, which composes directly with `MaypyMaybe.Filter`.

Modelling conventions:

- Python `None` is `Wrappers.Option.None`. `Of` takes an `Option<T>`, and a mapper is `T -> Option<U>`. `Of(None)` is therefore always empty.
- A raised exception is `Wrappers.Result.Failure`. `Exceptions.Exception` holds the exceptions the core raises itself.
- `or_else` is split into `OrElseValue` (a plain alternative) and `OrElseSupply` (a zero-argument supplier). This replaces the runtime `isinstance(other, Supplier)` test.
- The effect of the consumer passed to `if_present` is a state transformer `(S, T) -> S`.
- Python's `==` on a Maybe runs in two steps. `__eq__` may answer `NotImplemented`. Python then falls back to identity, which is false for a Maybe against a non-Maybe.
- Containers are sequences, with element membership. Ordered values are integers.

Files: `wrappers.dfy`, `exceptions.dfy`, `maypy_maybe.dfy`, `legacy_maybe.dfy`, `predicates.dfy`.

## Model

| member | source | states |
|---|---|---|
| MaypyMaybe.Empty | maypy/_maybe.py:40-43 | `Maybe.empty()` is the empty Maybe, the same value as `of(None)` |
| MaypyMaybe.Of | maypy/_maybe.py:45-59 | `of(None)` is empty; `of(v)` for any other `v` is present and holds exactly `v` |
| MaypyMaybe.IsEmpty | maypy/_maybe.py:134-136 | `is_empty()` holds exactly for the empty variant (implementations at lines 181-182 and 229-230) |
| MaypyMaybe.IsPresent | maypy/_maybe.py:130-132 | `is_present()` is always the negation of `is_empty()` (lines 178-179 and 226-227) |
| MaypyMaybe.Truthy | maypy/_maybe.py:187-188 | `__bool__` equals `is_present()` for both variants (empty variant at lines 235-236) |
| MaypyMaybe.Get | maypy/_maybe.py:61-70 | `get()` succeeds exactly when present, with the value that `of` wrapped; on empty it raises `EmptyMaybeException` and returns nothing (lines 157-158 and 206-207) |
| MaypyMaybe.Filter | maypy/_maybe.py:72-84 | the result is present iff the Maybe is present and its payload passes the predicate; a present result is this very Maybe (lines 160-164 and 209-210) |
| MaypyMaybe.OrNone | maypy/_maybe.py:172-173 | `or_none()` gives `Some` exactly when present; wrapping its answer with `of` gives back the Maybe (empty variant at lines 220-221) |
| MaypyMaybe.Map | maypy/_maybe.py:86-98 | an empty Maybe maps to empty; a present one maps to a Maybe whose `or_none()` is the mapper's answer, so a `None` answer gives empty (lines 166-167 and 212-213) |
| MaypyMaybe.OrElseValue | maypy/_maybe.py:100-112 | when present, the answer is what `get()` returns and the alternative is ignored; when empty, it is the alternative (lines 169-170 and 218) |
| MaypyMaybe.OrElseSupply | maypy/_maybe.py:215-218 | when empty, the answer is the supplier's result; when present, it is what `get()` returns |
| MaypyMaybe.OrElseRaise | maypy/_maybe.py:122-128 | the payload is returned exactly when present; otherwise the caller's own exception is raised (lines 175-176 and 223-224) |
| MaypyMaybe.IfPresent | maypy/_maybe.py:138-144 | the consumer is applied to the payload when present; the state is unchanged when empty (lines 184-185 and 232-233) |
| MaypyMaybe.DunderEq | maypy/_maybe.py:190-193 | `__eq__` answers `NotImplemented` against a non-Maybe; otherwise its verdict is structural equality: empty equals empty, present equals present with an equal payload, present never equals empty (empty variant at lines 238-241) |
| MaypyMaybe.PyEquals | maypy/_maybe.py:238-241 | Python's `==` on a Maybe holds iff the other operand is a Maybe equal to it, and is false against any non-Maybe |
| MaypyMaybe.IfPresentAfterMap | maypy/_maybe.py:166-185 | `m.map(f).if_present(c)` is `m.if_present(c')`, where `c'` applies `c` to `f`'s answer and does nothing when `f` answers `None` |
| MaypyMaybe.Repr | maypy/_maybe.py:195-196 | the string form always starts with `Maybe[`; it is the literal `Maybe[empty]` exactly for an empty Maybe (line 244); a present one ends in `)` |
| MaypyMaybe.OfOrNoneRoundTrip | maypy/_maybe.py:114-120 | `or_none(of(v)) == v` for every optional `v`, and `of(or_none(m)) == m` for every Maybe |
| MaypyMaybe.OfThenGet | maypy/_maybe.py:57-59 | `of(None)` is empty and its `get()` raises `EmptyMaybeException`; `of(v).get()` returns exactly `v` |
| MaypyMaybe.FilterEmptyIgnoresPredicate | maypy/_maybe.py:209-210 | filtering an empty Maybe gives empty whatever the predicate |
| MaypyMaybe.FilterIdempotent | maypy/_maybe.py:160-164 | filtering twice by the same predicate is filtering once |
| MaypyMaybe.FilterConjunction | maypy/_maybe.py:72-84 | two chained filters are one filter by the conjunction of the predicates |
| MaypyMaybe.MapRewrapsThroughOf | maypy/_maybe.py:166-167 | `of(v).map(f)` is `of(f(v))`: empty when `f(v)` is `None`, otherwise `get()` returns `f(v)` |
| MaypyMaybe.MapIdentity | maypy/_maybe.py:86-98 | mapping with the wrapping identity changes nothing |
| MaypyMaybe.MapComposition | maypy/_maybe.py:212-213 | two maps in a row are one map by the composed mapper, and a `None` from the first stops the chain |
| MaypyMaybe.OrElseValueIsConstantSupplier | maypy/_maybe.py:169-170 | `or_else` with a value is `or_else` with a supplier that always returns that value |
| MaypyMaybe.GetIsOrElseRaiseEmpty | maypy/_maybe.py:206-207 | `get()` is `or_else_raise(EmptyMaybeException())` |
| MaypyMaybe.EqualityLaws | maypy/_maybe.py:190-192 | `==` between Maybes is reflexive and symmetric; it never matches a non-Maybe; empty equals exactly the empty Maybes |
| MaypyMaybe.EqualityAfterMap | tests/test_maybe.py:89-92 | `maybe(45) == maybe(5).map(lambda x: x * 9)` |
| LegacyMaybe.LiftIsBijective | maybe/_maybe.py:11-17 | the container values of the earlier snapshot correspond one-to-one with those of the later one |
| LegacyMaybe.Empty | maybe/_maybe.py:40-43 | `Maybe.empty()` is empty and agrees with the later snapshot |
| LegacyMaybe.Of | maybe/_maybe.py:45-56 | `of(None)` is empty; `of(v)` is present with `get()` returning `v`; it agrees with the later `of` |
| LegacyMaybe.IsEmpty | maybe/_maybe.py:104-106 | `is_empty()` holds exactly for the empty variant (lines 147-148 and 195-196) |
| LegacyMaybe.IsPresent | maybe/_maybe.py:100-102 | `is_present()` is the negation of `is_empty()` (lines 144-145 and 192-193) |
| LegacyMaybe.Truthy | maybe/_maybe.py:153-154 | `__bool__` equals `is_present()` (empty variant at lines 201-202) |
| LegacyMaybe.Get | maybe/_maybe.py:58-64 | `get()` returns the payload when present and raises `EmptyMaybeException` when empty (lines 123-124 and 172-173) |
| LegacyMaybe.Filter | maybe/_maybe.py:66-72 | keeps the Maybe iff it is present and the predicate holds of its payload; empty stays empty (lines 126-130 and 175-176) |
| LegacyMaybe.Map | maybe/_maybe.py:74-80 | a present Maybe maps to `of(f(v))`, so `None` becomes empty; empty maps to empty (lines 132-133 and 178-179) |
| LegacyMaybe.OrElseValue | maybe/_maybe.py:82-87 | the payload when present, whatever the alternative; the alternative when empty (lines 135-136 and 184) |
| LegacyMaybe.OrElseSupply | maybe/_maybe.py:181-184 | the supplier's result when empty, the payload when present |
| LegacyMaybe.OrNone | maybe/_maybe.py:186-187 | the payload, or `None` when empty; `of` of the answer gives back the Maybe (present variant at lines 138-139) |
| LegacyMaybe.OrElseRaise | maybe/_maybe.py:96-98 | the payload when present, the caller's exception raised when empty (lines 141-142 and 189-190) |
| LegacyMaybe.IfPresent | maybe/_maybe.py:108-110 | the consumer is skipped when empty and applied to the payload when present (lines 150-151 and 198-199) |
| LegacyMaybe.PyEquals | maybe/_maybe.py:156-159 | `==` holds iff the operand is a Maybe with the same variant and an equal payload; it is false against a non-Maybe (empty variant at lines 204-207) |
| LegacyMaybe.Str | maybe/_maybe.py:161-162 | `__str__` is the literal `Maybe[empty]` exactly for an empty Maybe (line 210), and reads like the later `__repr__` |
| Predicates.IsTruthy | maypy/predicates.py:40-47 | `bool(val)` is false exactly for `None`, `False`, `0`, an empty string, list or sized object, and an empty Maybe |
| Predicates.IsFalsy | maypy/predicates.py:30-37 | `is_falsy` holds exactly for those falsy values |
| Predicates.FalsyIsNotTruthy | tests/test_predicate.py:73-91 | `is_falsy(x)` is the negation of `is_truthy(x)` |
| Predicates.IsLength | maypy/predicates.py:50-71 | `is_length(n)(s)` holds iff `len(s) == n`; no input passes a negative `n` |
| Predicates.IsEmpty | maypy/predicates.py:74-76 | `is_empty(s)`, defined as `is_length(0)(s)`, holds iff `s` is empty |
| Predicates.StripLeading | maypy/predicates.py:90 | the leading half of `str.strip()`: it drops only whitespace and keeps a suffix that does not start with whitespace |
| Predicates.StripTrailing | maypy/predicates.py:90 | the trailing half of `str.strip()`: it drops only whitespace and keeps a prefix that does not end with whitespace |
| Predicates.Strip | maypy/predicates.py:90 | `str.strip()` returns the contiguous middle of the string: everything before it and after it is whitespace, it neither starts nor ends with whitespace, and it is empty iff the string is all whitespace |
| Predicates.MiddleOfSuffix | maypy/predicates.py:79-90 | cutting whitespace off the front and then off the back leaves a middle that neither starts nor ends with whitespace, with only whitespace around it, and that is empty exactly when every character is whitespace |
| Predicates.StripIdempotent | maypy/predicates.py:89-90 | stripping an already stripped string changes nothing |
| Predicates.IsBlankStr | maypy/predicates.py:79-90 | `is_blank_str(s)`, that is `is_empty(s.strip())`, holds iff every character of `s` is whitespace |
| Predicates.Neg | maypy/predicates.py:93-119 | `neg(p)(x) == not p(x)` for every `x` |
| Predicates.DoubleNegation | maypy/predicates.py:97-98 | `neg(neg(p))` agrees with `p` everywhere |
| Predicates.Equals | maypy/predicates.py:122-144 | `equals(e)(x)` holds iff `x == e` |
| Predicates.Contains | maypy/predicates.py:158-173 | `contains()` with no items raises `ValueError("At least one item is required")`; otherwise its predicate holds iff every item is a member of the input |
| Predicates.OneOf | maypy/predicates.py:176-196 | `one_of(opts)(x)` holds iff `x` is a member of `opts` |
| Predicates.ContainsIsInclusion | maypy/predicates.py:151-152 | `contains(*items)(c)` is inclusion of the item set in the set of members of `c`; order and repetition of items do not matter |
| Predicates.ContainsOneIsOneOf | maypy/predicates.py:147-155 | `contains(x)(c)` equals `one_of(c)(x)` |
| Predicates.MatchRegex | maypy/predicates.py:220-239 | a compiled pattern with non-zero flags raises the `TypeError`; otherwise a compiled pattern is used as is, and a string is compiled with the given flags |
| Predicates.MatchRegexCompileAgrees | maypy/predicates.py:232-239 | a pattern string with flags gives the same pattern as a compiled pattern of that string and those flags, passed with no flags; the compiled pattern with non-zero flags raises the `TypeError` instead |
| Predicates.Comparator | maypy/predicates.py:249-261 | `_Comparator(bound, op)` applies the operator with the input on the left and the bound on the right: `x > bound`, `x >= bound`, `x < bound` or `x <= bound` |
| Predicates.Gt | maypy/predicates.py:267-269 | `gt(b)(x)` holds iff `x > b` |
| Predicates.Ge | maypy/predicates.py:272-274 | `ge(b)(x)` holds iff `x >= b` |
| Predicates.Lt | maypy/predicates.py:277-279 | `lt(b)(x)` holds iff `x < b` |
| Predicates.Le | maypy/predicates.py:282-284 | `le(b)(x)` holds iff `x <= b` |
| Predicates.ComparatorLaws | maypy/predicates.py:260-261 | `ge` is `gt` or `equals`; `le` is `lt` or `equals`; `lt(b)` is `neg(ge(b))`; `le(b)` is `neg(gt(b))`; `gt(b)(x)` is `lt(x)(b)` |
| Predicates.Between | maypy/predicates.py:287-312 | `between(lo, hi)` is `lo <= x <= hi`; with `exclude` it is `lo < x < hi` |
| Predicates.BetweenLaws | maypy/predicates.py:293-297 | inclusive `between` is `ge(lo)` and `le(hi)`; exclusive is `gt(lo)` and `lt(hi)`; exclusive implies inclusive; exclusive rejects both endpoints; inclusive accepts them when `lo <= hi` |
| Predicates.FilterByNegation | maypy/predicates.py:104-119 | on a present Maybe, exactly one of `filter(p)` and `filter(neg(p))` keeps the value; on an empty Maybe both are empty |
| Predicates.BlankStrExamples | tests/test_predicate.py:67-71 | the tested `is_blank_str` examples: `""` and `"    "` are blank, `"   1"` and `"maypy"` are not |
| Predicates.FilterBlankStrExamples | maypy/predicates.py:109-111 | `Maybe.of("maypy").filter(is_blank_str)` is empty and `.filter(neg(is_blank_str))` is present |
| Predicates.ContainsOneOfExamples | tests/test_predicate.py:98-115 | the tested `contains("1", "2")` and `one_of(["toto", "titi", "lala"])` examples, including `contains()` raising `ValueError`; a tested string input is written as the list of its one-character strings |
| Predicates.BetweenExamples | tests/test_predicate.py:179-195 | the tested integer examples of `between(0, 10)` and `between(0, 10, True)`: 6 passes both, 0 and 10 pass only the inclusive form, 11 passes neither |

## Left out

- Regular-expression matching itself (`re.compile` and `Pattern.match`, maypy/predicates.py:204 and 239) belongs to Python's `re` library. `MatchRegex` models only the argument check and which pattern the predicate ends up using. A pattern string that `re.compile` rejects would raise `re.error`; that is not modelled.
- Python's generic truthiness: `Predicates.Value` covers only `None`, booleans, integers, strings, lists, objects with only `__len__`, plain objects and Maybes. Floats, dicts, sets and user `__bool__` methods are left out.
- Exceptions raised by a caller's predicate, mapper, supplier or consumer are not modelled. Dafny function values are total, so the propagation of such errors does not arise.
- The supplier passed to `or_else` returns a fresh object on every call. Object identity is not modelled, so `OrElseSupply` only states the value.
- The runtime type name and `str()` of a present payload are reflection. `Repr` and `Str` take them as parameters.
- The `__repr__` strings of the predicate objects (maypy/predicates.py:59-60, 100-101 and others) are debugging aids and are not modelled.
- Predicates.Contains: Python's `in` on a string tests for a substring. The model tests element membership in a sequence, which agrees with the substring test only for one-character items.
- Predicates.OneOf: as for `Contains`, options are a sequence with element membership. Substring tests on strings and key membership in dicts are left out.
- Predicates.IsTruthy: `Value` has its own Python `None`, `NoneValue`, so the constructor can build `MaybeObject(M.Present(NoneValue))`. `Maybe.of(None)` is empty (maypy/_maybe.py:57-58), so that value stands for no Python object, and `IsTruthy` calls it truthy. `M.Of(Some(NoneValue))` produces it, while Python's `Maybe.of(None)` is empty; Python's `None` must reach `Of` as `Wrappers.None`.
- Predicates.IsLength: sized inputs are sequences. A user object with `__len__` is covered only by truthiness.
- Predicates.Gt: like `Ge`, `Lt`, `Le` and `Between`, it is stated over integers. Floats and other ordered types (such as `datetime`) are left out, because floating point is not modelled; the tested input `-1.67` of `between` is therefore not stated.
- MaypyMaybe.Of: for an `Option` payload type, `Of(Some(None))` is `Present(None)`, and so is `Map` with a mapper answering `Some(None)`. Python's `Optional` does not nest, so this value stands for no Python value.
- MaypyMaybe.DunderEq: payload equality is Dafny's structural equality. Line 192 forwards the payload's own `__eq__` answer, `NotImplemented` included. For example, two distinct instances of a class without `__eq__` make `object.__eq__` answer `NotImplemented`. The model turns every such answer into a verdict, which is false for distinct payloads. `PyEquals` is unaffected, because Python then falls back to identity, which is also false. A payload type with a custom `__eq__` is not modelled.
- MaypyMaybe.PyEquals: a non-Maybe operand is assumed not to recognise a Maybe in its own `__eq__`.
- The `Empty = Maybe.empty()` module constants (maypy/_maybe.py:247, maybe/_maybe.py:213) are `Empty()`.
- Package wiring is out of scope: `maypy/__init__.py`, the `Predicate`/`Mapper`/`Supplier` protocols in `_functional.py`, and the message text of `EmptyMaybeException`.
- The docstring of `or_none` in maybe/_maybe.py:89-94 says it returns "other". The code (lines 138-139 and 186-187) returns the payload or `None`, and the model follows the code.

=== FILE: exceptions.dfy ===
/** The exceptions the core raises of its own accord. */
module Exceptions {

  /** `EmptyMaybeException` is raised by `get` on an empty Maybe;
      `ValueError` and `TypeError` are raised by predicate factories given bad arguments. */
  datatype Exception =
    | EmptyMaybeException
    | ValueError(message: string)
    | TypeError(message: string)
}

=== FILE: legacy_maybe.dfy ===
/**
  The earlier snapshot of the Maybe container, `maybe/_maybe.py`. It has the
  same two variants and the same operations, with `__str__` where the later
  copy has `__repr__`. Each operation is stated on its own terms and, through
  `Lift`, shown to agree with its counterpart in `MaypyMaybe`.
 */
module LegacyMaybe {
  import opened Wrappers
  import opened Exceptions
  import M = MaypyMaybe

  /** `Present(v)` is `_ValuedMaybe(v)`, `Absent` is `_EmptyMaybe()`. */
  datatype Maybe<+T> = Present(value: T) | Absent

  /** The right-hand operand of Python's `==`: a Maybe of this snapshot, or any other object. */
  datatype Operand<+T> = MaybeOperand(maybe: Maybe<T>) | NonMaybe

  /** The string form of an empty Maybe. */
  const EmptyStr: string := "Maybe[empty]"

  /** The same container value, seen as one of the later snapshot. */
  function Lift<T>(m: Maybe<T>): (r: M.Maybe<T>)
    ensures r.Present? <==> m.Present?
    ensures r.Present? ==> r.value == m.value
  {
    match m
    case Present(v) => M.Present(v)
    case Absent => M.Absent
  }

  function LiftOperand<T>(o: Operand<T>): (r: M.Operand<T>)
    ensures r.NonMaybe? <==> o.NonMaybe?
    ensures r.MaybeOperand? ==> r.maybe == Lift(o.maybe)
  {
    match o
    case MaybeOperand(m) => M.MaybeOperand(Lift(m))
    case NonMaybe => M.NonMaybe
  }

  /** `Lift` loses nothing and misses nothing: the two snapshots hold the same values. */
  lemma LiftIsBijective<T>(a: Maybe<T>, b: Maybe<T>, n: M.Maybe<T>)
    ensures Lift(a) == Lift(b) ==> a == b
    ensures exists c :: Lift(c) == n
  {
    match n
    case Present(v) => assert Lift(Present(v)) == n;
    case Absent => assert Lift(Absent) == n;
  }

  /** `Maybe.empty()` */
  function Empty<T>(): (m: Maybe<T>)
    ensures IsEmpty(m)
    ensures Lift(m) == M.Empty()
  {
    Absent
  }

  /** `Maybe.of(val)`: `None` gives an empty Maybe, any other value is wrapped. */
  function Of<T>(val: Option<T>): (m: Maybe<T>)
    ensures val.None? <==> IsEmpty(m)
    ensures val.Some? ==> Get(m) == Success(val.value)
    ensures Lift(m) == M.Of(val)
  {
    if val.None? then Absent else Present(val.value)
  }

  /** `is_empty()` */
  function IsEmpty<T>(m: Maybe<T>): (r: bool)
    ensures r <==> m == Absent
    ensures r == M.IsEmpty(Lift(m))
  {
    match m
    case Present(_) => false
    case Absent => true
  }

  /** `is_present()`: always the negation of `is_empty()`. */
  function IsPresent<T>(m: Maybe<T>): (r: bool)
    ensures r == !IsEmpty(m)
    ensures r == M.IsPresent(Lift(m))
  {
    match m
    case Present(_) => true
    case Absent => false
  }

  /** `__bool__`: truthy exactly when a value is held. */
  function Truthy<T>(m: Maybe<T>): (r: bool)
    ensures r == IsPresent(m)
    ensures r == M.Truthy(Lift(m))
  {
    match m
    case Present(_) => true
    case Absent => false
  }

  /** `get()`: the payload, or `EmptyMaybeException` raised on an empty Maybe. */
  function Get<T>(m: Maybe<T>): (r: Result<T, Exception>)
    ensures r.Success? <==> m.Present?
    ensures r.Success? ==> r.value == m.value
    ensures r.Failure? ==> r.error == EmptyMaybeException
    ensures r == M.Get(Lift(m))
  {
    match m
    case Present(v) => Success(v)
    case Absent => Failure(EmptyMaybeException)
  }

  /** `filter(predicate)`: keeps the Maybe iff its payload passes; empty stays empty. */
  function Filter<T>(m: Maybe<T>, p: T -> bool): (r: Maybe<T>)
    ensures IsPresent(r) <==> IsPresent(m) && p(m.value)
    ensures IsPresent(r) ==> r == m
    ensures Lift(r) == M.Filter(Lift(m), p)
  {
    match m
    case Present(v) => if p(v) then m else Empty()
    case Absent => m
  }

  /** `map(mapper)`: the mapper's answer goes back through `Maybe.of`. */
  function Map<T, U>(m: Maybe<T>, mapper: T -> Option<U>): (r: Maybe<U>)
    ensures IsEmpty(m) ==> IsEmpty(r)
    ensures IsPresent(m) ==> r == Of(mapper(m.value))
    ensures Lift(r) == M.Map(Lift(m), mapper)
  {
    match m
    case Present(v) => Of(mapper(v))
    case Absent => Absent
  }

  /** `or_else(other)` with a plain alternative value. */
  function OrElseValue<T>(m: Maybe<T>, other: T): (r: T)
    ensures IsPresent(m) ==> r == m.value
    ensures IsEmpty(m) ==> r == other
    ensures r == M.OrElseValue(Lift(m), other)
  {
    match m
    case Present(v) => v
    case Absent => other
  }

  /** `or_else(other)` with a supplier, consulted only when empty. */
  function OrElseSupply<T>(m: Maybe<T>, supplier: () -> T): (r: T)
    ensures IsPresent(m) ==> r == m.value
    ensures IsEmpty(m) ==> r == supplier()
    ensures r == M.OrElseSupply(Lift(m), supplier)
  {
    match m
    case Present(v) => v
    case Absent => supplier()
  }

  /** `or_none()`: the payload, or `None`. */
  function OrNone<T>(m: Maybe<T>): (r: Option<T>)
    ensures Of(r) == m
    ensures r == M.OrNone(Lift(m))
  {
    match m
    case Present(v) => Some(v)
    case Absent => None
  }

  /** `or_else_raise(exception)`: the payload, or the caller's exception raised. */
  function OrElseRaise<T, E>(m: Maybe<T>, exception: E): (r: Result<T, E>)
    ensures r.Success? <==> IsPresent(m)
    ensures r.Success? ==> r.value == m.value
    ensures r.Failure? ==> r.error == exception
    ensures r == M.OrElseRaise(Lift(m), exception)
  {
    match m
    case Present(v) => Success(v)
    case Absent => Failure(exception)
  }

  /** `if_present(consumer)`, with the consumer's effect a transformation of state `S`. */
  function IfPresent<T, S>(m: Maybe<T>, consumer: (S, T) -> S, state: S): (r: S)
    ensures IsEmpty(m) ==> r == state
    ensures r == M.IfPresent(Lift(m), consumer, state)
  {
    match m
    case Present(v) => consumer(state, v)
    case Absent => state
  }

  /** Python's `a == other`, through `__eq__` of both variants; against a
      non-Maybe `__eq__` answers `NotImplemented` and the comparison is false. */
  function PyEquals<T(==)>(a: Maybe<T>, other: Operand<T>): (r: bool)
    ensures r <==> other == MaybeOperand(a)
    ensures r == M.PyEquals(Lift(a), LiftOperand(other))
  {
    match other
    case NonMaybe => false
    case MaybeOperand(b) =>
      match a
      case Present(v) => if IsPresent(b) then b.value == v else false
      case Absent => if IsPresent(b) then false else true
  }

  /** `__str__`: `Maybe[<type name>](<value>)` when present, `Maybe[empty]`
      otherwise; it reads exactly like the later snapshot's `__repr__`. */
  function Str<T>(m: Maybe<T>, typeName: T -> string, render: T -> string): (r: string)
    ensures r == EmptyStr <==> IsEmpty(m)
    ensures r == M.Repr(Lift(m), typeName, render)
  {
    match m
    case Present(v) =>
      var r := "Maybe[" + typeName(v) + "](" + render(v) + ")";
      assert r[|r| - 1] == ')' != EmptyStr[|EmptyStr| - 1];
      r
    case Absent => EmptyStr
  }
}

=== FILE: maypy_maybe.dfy ===
/**
  The Maybe container of `maypy/_maybe.py`: a value that is either present
  (`_ValuedMaybe`) or absent (`_EmptyMaybe`), with the Java-Optional style API.
  Every operation is a case split on the variant; nothing is ever mutated.
 */
module MaypyMaybe {
  import opened Wrappers
  import opened Exceptions

  /** `Present(v)` is `_ValuedMaybe(v)`, `Absent` is `_EmptyMaybe()`.
      Absence is structural: `Of(None)` is always empty. */
  datatype Maybe<+T> = Present(value: T) | Absent

  /** The right-hand operand of Python's `==`: another Maybe, or any other object. */
  datatype Operand<+T> = MaybeOperand(maybe: Maybe<T>) | NonMaybe

  /** What a Python `__eq__` method returns: a verdict, or `NotImplemented`. */
  datatype EqResult = Verdict(holds: bool) | NotImplemented

  /** The string form of an empty Maybe. */
  const EmptyRepr: string := "Maybe[empty]"

  /** `Maybe.empty()` */
  function Empty<T>(): (m: Maybe<T>)
    ensures IsEmpty(m)
    ensures Of(None) == m
  {
    Absent
  }

  /** `Maybe.of(val)`: `None` gives an empty Maybe, anything else is wrapped. */
  function Of<T>(val: Option<T>): (m: Maybe<T>)
    ensures val.None? <==> m.Absent?
    ensures val.Some? ==> m.Present? && m.value == val.value
  {
    if val.None? then Absent else Present(val.value)
  }

  /** `is_empty()` */
  function IsEmpty<T>(m: Maybe<T>): (r: bool)
    ensures r <==> m == Absent
  {
    match m
    case Present(_) => false
    case Absent => true
  }

  /** `is_present()`: always the negation of `is_empty()`. */
  function IsPresent<T>(m: Maybe<T>): (r: bool)
    ensures r == !IsEmpty(m)
  {
    match m
    case Present(_) => true
    case Absent => false
  }

  /** `__bool__`: a Maybe is truthy exactly when it holds a value. */
  function Truthy<T>(m: Maybe<T>): (r: bool)
    ensures r == IsPresent(m)
  {
    match m
    case Present(_) => true
    case Absent => false
  }

  /** `get()`: the payload, or `EmptyMaybeException` raised on an empty Maybe. */
  function Get<T>(m: Maybe<T>): (r: Result<T, Exception>)
    ensures r.Success? <==> IsPresent(m)
    ensures r.Success? ==> m == Of(Some(r.value))
    ensures r.Failure? ==> r.error == EmptyMaybeException
  {
    match m
    case Present(v) => Success(v)
    case Absent => Failure(EmptyMaybeException)
  }

  /** `filter(predicate)`: keeps this very Maybe when its payload passes the
      predicate; an empty Maybe is returned as is, without calling the predicate. */
  function Filter<T>(m: Maybe<T>, p: T -> bool): (r: Maybe<T>)
    ensures IsPresent(r) <==> IsPresent(m) && p(m.value)
    ensures IsPresent(r) ==> r == m
  {
    match m
    case Present(v) => if p(v) then m else Empty()
    case Absent => m
  }

  /** `or_none()`: the payload, or `None`. Wrapping the answer again gives back the Maybe. */
  function OrNone<T>(m: Maybe<T>): (r: Option<T>)
    ensures r.Some? <==> IsPresent(m)
    ensures Of(r) == m
  {
    match m
    case Present(v) => Some(v)
    case Absent => None
  }

  /** `map(mapper)`: the mapper's answer re-wrapped through `Maybe.of`, so a
      mapper that answers `None` gives an empty Maybe; an empty Maybe stays empty. */
  function Map<T, U>(m: Maybe<T>, mapper: T -> Option<U>): (r: Maybe<U>)
    ensures IsEmpty(m) ==> IsEmpty(r)
    ensures IsPresent(m) ==> OrNone(r) == mapper(m.value)
  {
    match m
    case Present(v) => Of(mapper(v))
    case Absent => Absent
  }

  /** `or_else(other)` with a plain alternative value. */
  function OrElseValue<T>(m: Maybe<T>, other: T): (r: T)
    ensures IsPresent(m) ==> Get(m) == Success(r)
    ensures IsEmpty(m) ==> r == other
  {
    match m
    case Present(v) => v
    case Absent => other
  }

  /** `or_else(other)` with a supplier: it is consulted only when the Maybe is empty. */
  function OrElseSupply<T>(m: Maybe<T>, supplier: () -> T): (r: T)
    ensures IsPresent(m) ==> Get(m) == Success(r)
    ensures IsEmpty(m) ==> r == supplier()
  {
    match m
    case Present(v) => v
    case Absent => supplier()
  }

  /** `or_else_raise(exception)`: the payload, or exactly the caller's exception raised. */
  function OrElseRaise<T, E>(m: Maybe<T>, exception: E): (r: Result<T, E>)
    ensures r.Success? <==> IsPresent(m)
    ensures r.Success? ==> OrNone(m) == Some(r.value)
    ensures r.Failure? ==> r.error == exception
  {
    match m
    case Present(v) => Success(v)
    case Absent => Failure(exception)
  }

  /** `if_present(consumer)`: the consumer's effect is a transformation of some
      state `S`; it is applied to the payload when present, skipped otherwise. */
  function IfPresent<T, S>(m: Maybe<T>, consumer: (S, T) -> S, state: S): (r: S)
    ensures IsEmpty(m) ==> r == state
    ensures IsPresent(m) ==> r == consumer(state, Get(m).value)
  {
    match m
    case Present(v) => consumer(state, v)
    case Absent => state
  }

  /** `__eq__` of both variants: `NotImplemented` against a non-Maybe; otherwise
      empty matches empty, and present matches present with an equal payload. */
  function DunderEq<T(==)>(a: Maybe<T>, other: Operand<T>): (r: EqResult)
    ensures r.NotImplemented? <==> other.NonMaybe?
    ensures r.Verdict? ==> (r.holds <==> a == other.maybe)
  {
    match other
    case NonMaybe => NotImplemented
    case MaybeOperand(b) =>
      match a
      case Present(v) => Verdict(if IsPresent(b) then b.value == v else false)
      case Absent => Verdict(if IsPresent(b) then false else true)
  }

  /** Python's `a == other`. When `__eq__` answers `NotImplemented`, the
      reflected comparison of a non-Maybe object does not recognise a Maybe
      either, and Python falls back to identity, which is false. */
  function PyEquals<T(==)>(a: Maybe<T>, other: Operand<T>): (r: bool)
    ensures r <==> other == MaybeOperand(a)
  {
    match DunderEq(a, other)
    case Verdict(b) => b
    case NotImplemented => false
  }

  /** `__repr__`: `Maybe[<type name>](<value>)` when present, `Maybe[empty]`
      otherwise. The payload's runtime type name and rendering are parameters. */
  function Repr<T>(m: Maybe<T>, typeName: T -> string, render: T -> string): (r: string)
    ensures |r| > 6 && r[..6] == "Maybe["
    ensures r == EmptyRepr <==> IsEmpty(m)
    ensures IsPresent(m) ==> r[|r| - 1] == ')'
  {
    match m
    case Present(v) =>
      var r := "Maybe[" + typeName(v) + "](" + render(v) + ")";
      assert r[|r| - 1] == ')' != EmptyRepr[|EmptyRepr| - 1];
      r
    case Absent => EmptyRepr
  }

  // Laws relating the operations

  /** `of` and `or_none` are inverse: the Maybe is exactly an explicit Optional. */
  lemma OfOrNoneRoundTrip<T>(val: Option<T>, m: Maybe<T>)
    ensures OrNone(Of(val)) == val
    ensures Of(OrNone(m)) == m
  {
  }

  /** `of(None)` is empty; `of(v)` is present and `get()` answers exactly `v`. */
  lemma OfThenGet<T>(val: Option<T>)
    ensures IsEmpty(Of(val)) <==> val.None?
    ensures val.Some? ==> Get(Of(val)) == Success(val.value)
    ensures val.None? ==> Get(Of(val)) == Failure(EmptyMaybeException)
  {
  }

  /** Filtering an empty Maybe gives the empty Maybe, whatever the predicate. */
  lemma FilterEmptyIgnoresPredicate<T>(p: T -> bool, q: T -> bool)
    ensures Filter(Absent, p) == Filter(Absent, q) == Absent
  {
  }

  /** Filtering twice by the same predicate is filtering once. */
  lemma FilterIdempotent<T>(m: Maybe<T>, p: T -> bool)
    ensures Filter(Filter(m, p), p) == Filter(m, p)
  {
  }

  /** Chained filters are one filter by the conjunction. */
  lemma FilterConjunction<T>(m: Maybe<T>, p: T -> bool, q: T -> bool)
    ensures Filter(Filter(m, p), q) == Filter(m, x => p(x) && q(x))
  {
  }

  /** `map` on a present value is `of` applied to the mapper's answer. */
  lemma MapRewrapsThroughOf<T, U>(v: T, mapper: T -> Option<U>)
    ensures Map(Of(Some(v)), mapper) == Of(mapper(v))
    ensures mapper(v).None? ==> IsEmpty(Map(Of(Some(v)), mapper))
    ensures mapper(v).Some? ==> Get(Map(Of(Some(v)), mapper)) == Success(mapper(v).value)
  {
  }

  /** Mapping with the mapper that wraps its argument changes nothing. */
  lemma MapIdentity<T>(m: Maybe<T>)
    ensures Map(m, (x: T) => Some(x)) == m
  {
  }

  /** Two maps in a row are one map by the composed mapper, where a `None`
      from the first mapper stops the chain. */
  lemma MapComposition<T, U, V>(m: Maybe<T>, f: T -> Option<U>, g: U -> Option<V>)
    ensures Map(Map(m, f), g) == Map(m, (x: T) => if f(x).Some? then g(f(x).value) else None)
  {
  }

  /** Consuming a mapped Maybe is consuming the original with the mapper folded
      into the consumer; a `None` from the mapper leaves the state untouched. */
  lemma IfPresentAfterMap<T, U, S>(m: Maybe<T>, f: T -> Option<U>, consumer: (S, U) -> S, state: S)
    ensures IfPresent(Map(m, f), consumer, state)
         == IfPresent(m, (st: S, x: T) => if f(x).Some? then consumer(st, f(x).value) else st, state)
  {
  }

  /** A plain alternative is the same as a supplier that always returns it. */
  lemma OrElseValueIsConstantSupplier<T>(m: Maybe<T>, other: T)
    ensures OrElseValue(m, other) == OrElseSupply(m, () => other)
  {
  }

  /** `get()` is `or_else_raise(EmptyMaybeException())`. */
  lemma GetIsOrElseRaiseEmpty<T>(m: Maybe<T>)
    ensures Get(m) == OrElseRaise(m, EmptyMaybeException)
  {
  }

  /** `==` between Maybes is reflexive and symmetric, and never matches a non-Maybe. */
  lemma EqualityLaws<T>(a: Maybe<T>, b: Maybe<T>)
    ensures PyEquals(a, MaybeOperand(a))
    ensures PyEquals(a, MaybeOperand(b)) == PyEquals(b, MaybeOperand(a))
    ensures !PyEquals(a, NonMaybe)
    ensures PyEquals(Absent, MaybeOperand(b)) <==> IsEmpty(b)
  {
  }

  /** `maybe(45) == maybe(5).map(lambda x: x * 9)`. */
  lemma EqualityAfterMap()
    ensures PyEquals(Of(Some(45)), MaybeOperand(Map(Of(Some(5)), (x: int) => Some(x * 9))))
  {
  }
}

=== FILE: predicates.dfy ===
/**
  The predicate combinators of `maypy/predicates.py`. Each factory captures its
  configuration and yields a predicate, modelled as a Dafny function value
  `T -> bool` that can be handed to `MaypyMaybe.Filter`. Python containers are
  sequences (membership is element membership) and ordered values are integers.
 */
module Predicates {
  import opened Wrappers
  import opened Exceptions
  import M = MaypyMaybe

  /** The Python values whose truthiness the model covers. */
  datatype Value =
    | NoneValue
    | Bool(b: bool)
    | Int(i: int)
    | Str(s: string)
    | List(items: seq<Value>)
    | SizedObject(length: nat)     // an instance of a class defining only `__len__`
    | PlainObject                  // an instance of a class defining neither `__bool__` nor `__len__`
    | MaybeObject(maybe: M.Maybe<Value>)

  /** Exactly the values Python's `bool()` maps to `False`. */
  const FalsyValues: set<Value> :=
    {NoneValue, Bool(false), Int(0), Str([]), List([]), SizedObject(0), MaybeObject(M.Absent)}

  /** `is_truthy(val)`: `bool(val)`. */
  function IsTruthy(val: Value): (r: bool)
    ensures r <==> val !in FalsyValues
  {
    match val
    case NoneValue => false
    case Bool(b) => b
    case Int(i) => i != 0
    case Str(s) => |s| != 0
    case List(items) => |items| != 0
    case SizedObject(n) => n != 0
    case PlainObject => true
    case MaybeObject(m) => M.Truthy(m)
  }

  /** `is_falsy(val)`: `not bool(val)`. */
  function IsFalsy(val: Value): (r: bool)
    ensures r <==> val in FalsyValues
  {
    !IsTruthy(val)
  }

  /** `is_falsy` and `is_truthy` always disagree. */
  lemma FalsyIsNotTruthy(val: Value)
    ensures IsFalsy(val) != IsTruthy(val)
  {
  }

  /** `is_length(expected_len)`: the input's `len()` equals `expected_len`. */
  function IsLength<T(!new)>(expected: int): (p: seq<T> -> bool)
    ensures forall s :: p(s) <==> |s| == expected
    ensures expected < 0 ==> forall s :: !p(s)
  {
    (s: seq<T>) => |s| == expected
  }

  /** `is_empty(val)`, which is `is_length(0)(val)`. */
  function IsEmpty<T(!new)>(s: seq<T>): (r: bool)
    ensures r <==> s == []
  {
    IsLength(0)(s)
  }

  /** The characters Python's `str.strip()` removes when given no argument. */
  predicate IsWhitespace(c: char)
  {
    var n := c as int;
    || 0x09 <= n <= 0x0D
    || 0x1C <= n <= 0x20
    || n == 0x85 || n == 0xA0 || n == 0x1680
    || 0x2000 <= n <= 0x200A
    || n == 0x2028 || n == 0x2029 || n == 0x202F || n == 0x205F || n == 0x3000
  }

  predicate AllWhitespace(s: string)
  {
    forall c :: c in s ==> IsWhitespace(c)
  }

  /** `r` neither starts nor ends with whitespace. */
  predicate Trimmed(r: string)
  {
    r == [] || (!IsWhitespace(r[0]) && !IsWhitespace(r[|r| - 1]))
  }

  /** `r` sits at offset `k` of `s`, with only whitespace before and after it. */
  predicate MiddleAt(s: string, r: string, k: int)
  {
    && 0 <= k <= |s| - |r|
    && r == s[k..k + |r|]
    && AllWhitespace(s[..k])
    && AllWhitespace(s[k + |r|..])
  }

  /** Removes the leading whitespace: what is dropped is all whitespace, and
      what is kept is a suffix that starts with a non-whitespace character. */
  function StripLeading(s: string): (r: string)
    ensures |r| <= |s| && r == s[|s| - |r|..]
    ensures AllWhitespace(s[..|s| - |r|])
    ensures r == [] || !IsWhitespace(r[0])
    decreases |s|
  {
    if |s| > 0 && IsWhitespace(s[0]) then
      var r := StripLeading(s[1..]);
      assert s[..|s| - |r|] == [s[0]] + s[1..][..|s| - 1 - |r|];
      r
    else
      s
  }

  /** Removes the trailing whitespace: what is dropped is all whitespace, and
      what is kept is a prefix that ends with a non-whitespace character. */
  function StripTrailing(s: string): (r: string)
    ensures |r| <= |s| && r == s[..|r|]
    ensures AllWhitespace(s[|r|..])
    ensures r == [] || !IsWhitespace(r[|r| - 1])
    decreases |s|
  {
    if |s| > 0 && IsWhitespace(s[|s| - 1]) then
      var r := StripTrailing(s[..|s| - 1]);
      assert s[|r|..] == s[..|s| - 1][|r|..] + [s[|s| - 1]];
      r
    else
      s
  }

  /** `str.strip()`: the middle of the string between its leading and trailing
      whitespace. It is empty exactly when the string is all whitespace. */
  function Strip(s: string): (r: string)
    ensures exists k :: MiddleAt(s, r, k)
    ensures Trimmed(r)
    ensures r == [] <==> AllWhitespace(s)
  {
    var lead := StripLeading(s);
    var r := StripTrailing(lead);
    MiddleOfSuffix(s, lead, r);
    r
  }

  /** A prefix `r` of a suffix `lead` of `s`, where both cuts drop only
      whitespace and stop at a non-whitespace character, is the stripped
      middle of `s`: it is empty exactly when `s` is all whitespace. */
  lemma MiddleOfSuffix(s: string, lead: string, r: string)
    requires |lead| <= |s| && lead == s[|s| - |lead|..] && AllWhitespace(s[..|s| - |lead|])
    requires lead == [] || !IsWhitespace(lead[0])
    requires |r| <= |lead| && r == lead[..|r|] && AllWhitespace(lead[|r|..])
    requires r == [] || !IsWhitespace(r[|r| - 1])
    ensures MiddleAt(s, r, |s| - |lead|)
    ensures Trimmed(r)
    ensures r == [] <==> AllWhitespace(s)
  {
    var k := |s| - |lead|;
    assert r == s[k..k + |r|];
    assert s[k + |r|..] == lead[|r|..];
    if r == [] {
      assert lead[|r|..] == lead;
      assert lead == [];
      assert s[..k] == s;
    } else {
      assert r[0] == lead[0] == s[k];
      assert s[k] in s;
    }
  }

  /** Stripping an already stripped string changes nothing. */
  lemma StripIdempotent(s: string)
    ensures Strip(Strip(s)) == Strip(s)
  {
    var r := Strip(s);
    assert StripLeading(r) == r;
    assert StripTrailing(r) == r;
  }

  /** `is_blank_str(val)`: `is_empty(val.strip())`, so a string is blank
      exactly when every character of it is whitespace. */
  function IsBlankStr(s: string): (r: bool)
    ensures r <==> AllWhitespace(s)
  {
    IsEmpty(Strip(s))
  }

  /** `neg(predicate)`: the predicate with its verdict inverted. */
  function Neg<T(!new)>(p: T -> bool): (q: T -> bool)
    ensures forall x :: q(x) == !p(x)
  {
    (x: T) => !p(x)
  }

  /** Negating twice gives back a predicate that agrees with the original everywhere. */
  lemma DoubleNegation<T(!new)>(p: T -> bool)
    ensures forall x :: Neg(Neg(p))(x) == p(x)
  {
  }

  /** `equals(expected)`: the input is equal to `expected`. */
  function Equals<T(==, !new)>(expected: T): (p: T -> bool)
    ensures forall x :: p(x) <==> x == expected
    ensures p(expected)
  {
    (x: T) => x == expected
  }

  /** The message of the `ValueError` raised by `contains()` with no items. */
  const AtLeastOneItem: string := "At least one item is required"

  /** `contains(*items)`: fails at construction when no item is given;
      otherwise the predicate holds iff every item is a member of the input. */
  function Contains<T(==, !new)>(items: seq<T>): (r: Result<seq<T> -> bool, Exception>)
    ensures r.Failure? <==> |items| == 0
    ensures r.Failure? ==> r.error == ValueError(AtLeastOneItem)
    ensures r.Success? ==> forall c :: r.value(c) <==> (forall i :: 0 <= i < |items| ==> items[i] in c)
  {
    if IsEmpty(items) then
      Failure(ValueError(AtLeastOneItem))
    else
      Success((c: seq<T>) => forall i | 0 <= i < |items| :: items[i] in c)
  }

  /** `one_of(options)`: the input is a member of `options`. */
  function OneOf<T(==, !new)>(options: seq<T>): (p: T -> bool)
    ensures forall x :: p(x) <==> x in options
  {
    (x: T) => x in options
  }

  /** What `contains` checks depends only on the set of items: it is set inclusion. */
  lemma ContainsIsInclusion<T(!new)>(items: seq<T>, c: seq<T>)
    requires |items| > 0
    ensures Contains(items).Success?
    ensures Contains(items).value(c) <==> (set x | x in items) <= (set x | x in c)
  {
    var p := Contains(items).value;
    var want := set x | x in items;
    var have := set x | x in c;
    if p(c) {
      forall x | x in want
        ensures x in have
      {
        var i :| 0 <= i < |items| && items[i] == x;
      }
    } else {
      var i :| 0 <= i < |items| && items[i] !in c;
      assert items[i] in want && items[i] !in have;
    }
  }

  /** `contains(x)(c)` and `one_of(c)(x)` ask the same question. */
  lemma ContainsOneIsOneOf<T(!new)>(x: T, c: seq<T>)
    ensures Contains([x]).Success?
    ensures Contains([x]).value(c) == OneOf(c)(x)
  {
    assert [x][0] == x;
  }

  /** A compiled `re.Pattern`: its source text and the flags it was compiled with. */
  datatype Pattern = Pattern(source: string, flags: int)

  /** The `regex` argument of `match_regex`: a pattern string or a compiled pattern. */
  datatype RegexArg = Raw(source: string) | Compiled(pattern: Pattern)

  /** The message of the `TypeError` raised by `match_regex` for flags given with a compiled pattern. */
  const FlagsWithPattern: string :=
    "'flags' can only be used with a string pattern; used the flags in re.compile() instead"

  /** `match_regex(regex, flags)` up to the pattern its predicate matches with:
      a string is compiled with the flags; a compiled pattern is used as is,
      and non-zero flags alongside it raise `TypeError`. */
  function MatchRegex(regex: RegexArg, flags: int): (r: Result<Pattern, Exception>)
    ensures r.Failure? <==> regex.Compiled? && flags != 0
    ensures r.Failure? ==> r.error == TypeError(FlagsWithPattern)
    ensures r.Success? && regex.Compiled? ==> r.value == regex.pattern
    ensures r.Success? && regex.Raw? ==> r.value.source == regex.source && r.value.flags == flags
  {
    match regex
    case Compiled(pattern) =>
      if flags != 0 then Failure(TypeError(FlagsWithPattern)) else Success(pattern)
    case Raw(source) => Success(Pattern(source, flags))
  }

  /** Passing a string with flags is passing the compiled pattern without
      them; passing the compiled pattern with the flags again is the error. */
  lemma MatchRegexCompileAgrees(source: string, flags: int)
    ensures MatchRegex(Raw(source), flags) == MatchRegex(Compiled(Pattern(source, flags)), 0)
    ensures flags != 0 ==> MatchRegex(Compiled(Pattern(source, flags)), flags) == Failure(TypeError(FlagsWithPattern))
  {
  }

  /** The relational operator a `_Comparator` applies: `operator.gt`, `ge`, `lt` or `le`. */
  datatype Operator = Greater | GreaterEq | Less | LessEq {
    function Holds(a: int, b: int): bool
    {
      match this
      case Greater => a > b
      case GreaterEq => a >= b
      case Less => a < b
      case LessEq => a <= b
    }
  }

  /** `_Comparator(bound, op)`: applies `op` to the input and the bound, in
      that order, so the input is always the left operand. */
  function Comparator(bound: int, op: Operator): (p: int -> bool)
    ensures op == Greater ==> forall x :: p(x) <==> x > bound
    ensures op == GreaterEq ==> forall x :: p(x) <==> x >= bound
    ensures op == Less ==> forall x :: p(x) <==> x < bound
    ensures op == LessEq ==> forall x :: p(x) <==> x <= bound
  {
    (x: int) => op.Holds(x, bound)
  }

  /** `gt(bound)` */
  function Gt(bound: int): (p: int -> bool)
    ensures forall x :: p(x) <==> x > bound
  {
    Comparator(bound, Greater)
  }

  /** `ge(bound)` */
  function Ge(bound: int): (p: int -> bool)
    ensures forall x :: p(x) <==> x >= bound
  {
    Comparator(bound, GreaterEq)
  }

  /** `lt(bound)` */
  function Lt(bound: int): (p: int -> bool)
    ensures forall x :: p(x) <==> x < bound
  {
    Comparator(bound, Less)
  }

  /** `le(bound)` */
  function Le(bound: int): (p: int -> bool)
    ensures forall x :: p(x) <==> x <= bound
  {
    Comparator(bound, LessEq)
  }

  /** How the four comparators relate to each other and to `equals` and `neg`. */
  lemma ComparatorLaws(b: int, x: int)
    ensures Ge(b)(x) == (Gt(b)(x) || Equals(b)(x))
    ensures Le(b)(x) == (Lt(b)(x) || Equals(b)(x))
    ensures Lt(b)(x) == Neg(Ge(b))(x)
    ensures Le(b)(x) == Neg(Gt(b))(x)
    ensures Gt(b)(x) == Lt(x)(b)
  {
  }

  /** `between(inf_bound, sup_bound, exclude)`: `inf <= x <= sup` by default,
      `inf < x < sup` when `exclude` is set. */
  function Between(inf: int, sup: int, exclude: bool): (p: int -> bool)
    ensures forall x :: p(x) <==> (if exclude then inf < x < sup else inf <= x <= sup)
  {
    if exclude then (x: int) => inf < x < sup else (x: int) => inf <= x <= sup
  }

  /** `between` is the conjunction of two comparators; the exclusive form is
      stronger than the inclusive one and rejects both endpoints. */
  lemma BetweenLaws(inf: int, sup: int, x: int)
    ensures Between(inf, sup, false)(x) == (Ge(inf)(x) && Le(sup)(x))
    ensures Between(inf, sup, true)(x) == (Gt(inf)(x) && Lt(sup)(x))
    ensures Between(inf, sup, true)(x) ==> Between(inf, sup, false)(x)
    ensures !Between(inf, sup, true)(inf) && !Between(inf, sup, true)(sup)
    ensures inf <= sup ==> Between(inf, sup, false)(inf) && Between(inf, sup, false)(sup)
  {
  }

  /** On a present value exactly one of `filter(p)` and `filter(neg(p))` keeps
      it; on an empty Maybe both are empty. */
  lemma FilterByNegation<T(!new)>(m: M.Maybe<T>, p: T -> bool)
    ensures M.IsPresent(m) ==> M.IsPresent(M.Filter(m, p)) != M.IsPresent(M.Filter(m, Neg(p)))
    ensures M.IsEmpty(m) ==> M.IsEmpty(M.Filter(m, p)) && M.IsEmpty(M.Filter(m, Neg(p)))
  {
  }

  /** The tested `is_blank_str` examples: `""` and `"    "` are blank, `"   1"` and `"maypy"` are not. */
  lemma BlankStrExamples()
    ensures IsBlankStr("") && IsBlankStr("    ")
    ensures !IsBlankStr("   1") && !IsBlankStr("maypy")
  {
    assert !IsWhitespace("   1"[3]);
    assert !IsWhitespace("maypy"[0]);
  }

  /** `Maybe.of("maypy").filter(is_blank_str)` is empty, and with `neg` it is present. */
  lemma FilterBlankStrExamples()
    ensures M.IsEmpty(M.Filter(M.Of(Some("maypy")), IsBlankStr))
    ensures M.IsPresent(M.Filter(M.Of(Some("maypy")), Neg(IsBlankStr)))
  {
    assert !IsWhitespace("maypy"[0]);
  }

  /** The tested `contains` and `one_of` examples. A tested string input is
      written as the sequence of its one-character strings. */
  lemma ContainsOneOfExamples()
    ensures Contains(["1", "2"]).Success?
    ensures Contains(["1", "2"]).value(["1", "2"])
    ensures Contains(["1", "2"]).value(["1", "2", "4", "5"])
    ensures !Contains(["1", "2"]).value(["4", "5"])
    ensures Contains<string>([]) == Failure(ValueError(AtLeastOneItem))
    ensures OneOf(["toto", "titi", "lala"])("toto")
    ensures OneOf(["toto", "titi", "lala"])("titi")
    ensures OneOf(["toto", "titi", "lala"])("lala")
    ensures !OneOf(["toto", "titi", "lala"])("maypy")
  {
    assert ["1", "2"][0] == "1" && "1" !in ["4", "5"];
    assert ["1", "2"][1] == "2" && ["1", "2", "4", "5"][1] == "2";
    assert ["toto", "titi", "lala"][1] == "titi" && ["toto", "titi", "lala"][2] == "lala";
  }

  /** The tested `between(0, 10)` examples, inclusive and exclusive. */
  lemma BetweenExamples()
    ensures Between(0, 10, false)(6) && Between(0, 10, false)(10) && Between(0, 10, false)(0)
    ensures !Between(0, 10, false)(11)
    ensures Between(0, 10, true)(6)
    ensures !Between(0, 10, true)(10) && !Between(0, 10, true)(0) && !Between(0, 10, true)(11)
  {
  }
}

=== FILE: wrappers.dfy ===
/** Python's `Optional[T]` and the raise-or-return outcome of an operation. */
module Wrappers {

  /** A possibly-`None` Python value: `None` is the absence sentinel. */
  datatype Option<+T> = None | Some(value: T)

  /** The outcome of a Python call that either returns a value or raises an exception. */
  datatype Result<+R, +E> = Success(value: R) | Failure(error: E)
}
